=== FILE: README.md ===
# listenlearn sequencer in Dafny

This project models the spaced-repetition audio sequencer of `settts_command` in
listenlearn's `main.py`. The sequencer reads bilingual CSV rows
(target-language phrase, fallback-language translation). For each row it
synthesizes two audio files. It builds `concat_list`, the order in which those
files are concatenated into one audio stream: each new row is played at once,
and earlier rows come back for review from `review_queue`. That queue is a
`defaultdict(list)` keyed by wait time.

Modules:

- `Items` (`items.dfy`): a learning pair and a synthesized row, with its weight
  (`TTSItem.measure`). An audio reference `Target(i)` / `Fallback(i)` stands for
  `target_{i}.mp3` / `fallback_{i}.mp3`. The first exposure and the review
  exposure of an item.
- `Keys` (`keys.dfy`): the ascending key order `sorted(review_queue.keys())`,
  and the filters that split it at the progress amount.
- `ReviewQueue` (`review_queue.dfy`): the queue as `map<int, seq<TtsItem>>`. A
  key may be present with an empty list, as reading a `defaultdict` creates it.
  `Progressed` is the closed form of `progress_queue(p)`. The loop body of
  `progress_queue` is `MoveBucket`, and `Partial` is its state after the first
  `j` keys.
- `Schedule` (`schedule.dfy`): one row of the loop as a function:
  - `ReviewPass`, the review at lines 175-196;
  - `Introduce`, lines 197-220;
  - `RowStep`, their composition;
  - `Run`, the whole loop.

  It also holds the closed form of the queue after any number of rows (`Shape`)
  and of the output (`Expected`), and the induction that connects them.
- `Timeline` (`timeline.dfy`): what the listener hears, read off the closed
  form:
  - the output only grows;
  - every row's fallback occurs once or twice, and which rows are reviewed;
  - exact outputs for two rows and for five short rows.
- `Sequencer` (`sequencer.dfy`): the loop as it runs. The class `Sequencer`
  holds `reviewQueue` and `concatList`, and its methods update them in place:
  - `ProgressQueue` is the nested function `progress_queue`, with its loop over
    the sorted old keys;
  - `Review`, `Introduce` and `Step` are the halves of one row and the whole row;
  - `SetTts` runs the row loop.

  Each method is proved equal to the corresponding function of `ReviewQueue` or
  `Schedule`.
- `LearningSets` (`learning_set.dfy`): the ordering loop of
  `learningset_command`. The chunk extractor is a function parameter.

What the loop does, as proved in `Schedule.RunShape` and `Schedule.RunOutput`:

- After n ≥ 1 rows, key 2 holds exactly the item of row n−1, and no other key
  is positive.
- Key 0 is present exactly when n is even, and then it holds the item of row
  n−2.
- Row n contributes `[T n, F n, T n, T n]`. When n ≥ 2 is even, the review of
  row n−2 comes before it.
- So odd rows are never reviewed, and an even row is reviewed once exactly when
  two more rows follow it (`Timeline.FallbackCount`).

The model follows `main.py` as written. Points a reader might expect to work
otherwise:

- `progress_queue` re-keys with `min(key - progress, 0)` (main.py:166). Every key
  at or above the progress amount collapses into key 0, and everything below it
  moves further down. A queue that shifted its buckets one tick at a time would
  keep positive keys apart instead.
- The review is a single `if`, not a loop until key 0 is empty (main.py:175).
- Nothing drains the queue after the last row, so items still waiting then are
  never reviewed.
- A long item is reviewed as `[T, T, F, T]` and a short one as `[T, F, T]`
  (main.py:177-185): the extra target reference is how the weight of 2 shows.

The comment at main.py:192-193 says the unweighted advance "won't make a
difference". That holds: whichever amount the review advances by, the
introduction that follows produces the same output and the same buckets at
keys 0 and above (`Schedule.AdvanceAmountInvisible`), and no review ever reads
a negative key (`Schedule.NonNegStep`). Besides, no run takes the unweighted
branch at all (`Schedule.CoarseBranchDead`).

## Model

| member | source | states |
|---|---|---|
| Items.Measure | main.py:151-153 | the weight is 1 or 2, and it is 1 exactly when the target text has fewer than 50 characters |
| Items.TotalMeasure | main.py:188-190 | the summed weight of a batch lies between its length and twice its length, and equals the length exactly when every item is short |
| Items.ReviewForm | main.py:177-185 | a review exposure has two references more than the item's weight |
| Items.ReviewFormRefs | main.py:177-185 | a review exposure is all targets of the item's row except a single fallback second from the end |
| Items.ReviewRefsSnoc | main.py:176-185 | expanding one more due item appends its review exposure after those of the earlier items (batch order) |
| Items.ReviewRefsLength | main.py:176-185 | a batch of due items yields twice its length plus its total weight in references |
| Items.IntroFallbacks | main.py:211-218 | an introduction contains its own row's fallback once and no other fallback |
| Items.ReviewFallbacks | main.py:177-185 | a review contains its own row's fallback once and no other fallback |
| Keys.SortedKeys | main.py:164 | the keys of a set in strictly ascending order: same elements, same count |
| Keys.SortedKeysOf | main.py:164 | any ascending enumeration of the keys is `SortedKeys`, so the walk order is unique |
| ReviewQueue.Progressed | main.py:163-167 | after `progress_queue(p)`, `p >= 1`, no key is positive; a key `k < p` moves with its bucket intact to `k - p`; key 0 exists exactly when some key was at least `p`, and then holds those buckets concatenated in ascending key order |
| ReviewQueue.ProgressedOrigin | main.py:166 | every negative key afterwards comes from the key `p` above it |
| ReviewQueue.ProgressedKeys | main.py:163-167 | the new key order is the old keys below `p` shifted down by `p`, then 0 if any key was at least `p` |
| ReviewQueue.ProgressedFlat | main.py:164-167 | reading all buckets in key order gives the same item sequence before and after, so no item is lost, duplicated or reordered |
| ReviewQueue.MergedSingle | main.py:164-167 | when a single key is at least `p`, key 0 receives exactly its bucket |
| ReviewQueue.PartialStep | main.py:165-167 | one loop iteration on the next old key moves the loop state from `Partial(j)` to `Partial(j + 1)` |
| ReviewQueue.PartialDone | main.py:164-167 | after the last old key the loop state is `Progressed` |
| Sequencer.Sequencer.ProgressQueue | main.py:163-167 | the in-place loop over the sorted old keys leaves the queue equal to `Progressed` and the output unchanged |
| Sequencer.Sequencer.MoveBucketAt | main.py:166-167 | reading `review_queue[new_key]`, popping `key` and extending leaves the queue equal to `MoveBucket` |
| Schedule.Touch | main.py:175 | reading a key of the `defaultdict` creates it with an empty list and changes nothing else |
| Schedule.AdvanceAmount | main.py:186-194 | the advance after a review is at least 1; it lies between the number of due items and twice that; it equals their number exactly when no key exceeds it or every due item is short |
| Schedule.ReviewPass | main.py:175-196 | the review appends the review exposures of key 0's items; when key 0 is empty the queue only gains key 0; otherwise no key stays positive |
| Items.MakeItem | main.py:197-202 | the item of row `i` carries the row's two texts and the index `i`, which names both of its audio files |
| Items.IntroForm | main.py:211-218 | the first exposure of row `i` is `[T i, F i, T i, T i]` (its fallback count is stated by `Items.IntroFallbacks`) |
| Items.ReviewRefs | main.py:176-185 | the review exposures of a batch, item after item in batch order (stated by `Items.ReviewRefsSnoc` and `Items.ReviewRefsLength`) |
| ReviewQueue.NewKey | main.py:166 | the new key of `key` is `min(key - p, 0)`: at most 0, at most `key - p`, and equal to one of them |
| ReviewQueue.MoveBucket | main.py:166-167 | one loop iteration: the bucket at `key` is removed and appended to the bucket at `NewKey(key, p)`, created empty if absent (its effect over the whole loop is stated by `ReviewQueue.PartialStep`) |
| Schedule.Run | main.py:174-220 | the loop over the rows, one `RowStep` per row in order (stated by `Schedule.RunSnoc`, `Schedule.RunShape`) |
| Schedule.ReviewPassFlat | main.py:175-196 | when key 0 holds items, the review deletes them from the queue and every other queued item survives the advance, in the same order |
| Sequencer.Sequencer.constructor | main.py:158-159 | `concat_list` starts empty and `review_queue` starts with no keys |
| LearningSets.LearningSet.Append | main.py:140 | the sentence is added after the current items |
| Sequencer.Sequencer.Review | main.py:175-196 | the in-place review leaves exactly the state `ReviewPass` describes |
| Schedule.Introduce | main.py:197-220 | the new row appends `[T i, F i, T i, T i]`; afterwards key 2 holds exactly the new item and no other key is positive (that every other queued item is kept is stated by `Schedule.IntroduceFlat`) |
| Schedule.IntroduceFlat | main.py:211-220 | the introduction keeps every queued item in key order and adds the new item after all of them |
| Schedule.RowStepFlat | main.py:174-220 | a row keeps every queued item outside key 0 in order and appends the new item; a non-empty key 0 leaves the queue with its review |
| Schedule.CoarseBranchDead | main.py:186-194 | in every run, whenever key 0 holds items some key lies beyond their count, so the unweighted advance of main.py:194 is never chosen |
| Schedule.AdvanceAmountInvisible | main.py:186-194 | after a review advances by any two amounts, the introduction that follows gives the same output and the same buckets at keys 0 and above, as the comment at main.py:192-193 promises |
| Schedule.IntroduceFresh | main.py:196-220 | introducing into a queue with no key above 0 leaves the new item alone at keys 0 and above |
| Schedule.ReviewPassNonNeg | main.py:174-194 | the review's output and the buckets it leaves at keys 0 and above depend only on the output so far and the buckets at keys 0 and above |
| Schedule.IntroduceNonNeg | main.py:196-220 | the same holds for the introduction of a row |
| Schedule.NonNegStep | main.py:174-220 | a whole row never reads a bucket at a negative key: states that agree at keys 0 and above give the same output and again agree at keys 0 and above |
| ReviewQueue.MergedAgree | main.py:163-167 | queues that agree at every key from `p` up merge the same items into key 0 |
| ReviewQueue.ProgressedNonNeg | main.py:163-167 | the buckets `progress_queue(p)` leaves at keys 0 and above depend only on the buckets at keys 0 and above |
| ReviewQueue.NonNegOfNonPositive | main.py:163-167 | a queue with no positive key has at most its key-0 bucket at keys 0 and above |
| ReviewQueue.NonNegAt | main.py:175 | queues with the same buckets at keys 0 and above read the same bucket at any such key |
| ReviewQueue.NonNegUpdate | main.py:220 | setting a bucket at a key 0 or above sets it in the queue's nonnegative part |
| ReviewQueue.NonNegRemove | main.py:195 | deleting a key 0 or above deletes it from the queue's nonnegative part |
| Sequencer.Sequencer.Introduce | main.py:197-220 | the in-place introduction leaves exactly the state `Introduce` describes |
| Schedule.RowStep | main.py:174-220 | one row outputs its review part then its introduction, and leaves the new item alone at key 2 with nothing else positive (conservation of the queue is stated by `Schedule.RowStepFlat`) |
| Sequencer.Sequencer.Step | main.py:174-220 | one in-place loop iteration leaves exactly the state `RowStep` describes |
| Schedule.IntroduceAfterReview | main.py:219-220 | introducing when no key is positive leaves the new item at key 2 and no key 0 |
| Schedule.IntroduceAfterWait | main.py:219-220 | introducing while one item waits alone at key 2 moves it to key 0 and puts the new item at key 2 |
| Schedule.AdvanceTwo | main.py:166-167 | advancing by 1 or 2 with 2 the only positive key moves that bucket to key 0 |
| Schedule.AdvanceNonPositive | main.py:166 | advancing a queue with no positive key leaves every key negative |
| Schedule.StepFirst | main.py:174-220 | the first row reviews nothing and leaves its item alone at key 2 with no key 0 |
| Schedule.StepOdd | main.py:174-220 | with key 0 absent, a row only introduces, and the item waiting at key 2 moves to key 0 |
| Schedule.ReviewOne | main.py:175-196 | a single due item is reviewed, and no key stays positive |
| Schedule.StepEven | main.py:174-220 | with one item due at key 0, a row reviews it, introduces the new row, and leaves no key 0 |
| Schedule.StepShape | main.py:174-220 | one row keeps the closed-form queue `Shape` and appends the closed-form references `RowRefs` |
| Schedule.RunSnoc | main.py:174 | the loop over one more row is one more `RowStep` |
| Schedule.RunShape | main.py:174-220 | after any non-empty prefix of rows, the queue has `Shape` and the output is `Expected` |
| Schedule.RunOutput | main.py:174-220 | the output of the loop over any rows is `Expected` |
| Sequencer.SetTts | main.py:158-220 | the in-place loop over the rows builds `concat_list` equal to `Expected` |
| Timeline.OutputGrows | main.py:174-220 | a further row keeps the output so far as a prefix and adds at least four references |
| Timeline.StepGrows | main.py:179-218 | one step only appends to the output |
| Timeline.ExpectedRows | main.py:174-220 | every reference names a row already read |
| Timeline.RowRefsFallbacks | main.py:175-218 | row n plays fallback `r` once if `r = n`, plus once if `n` is even, `n >= 2` and `r = n - 2` |
| Timeline.FallbackCount | main.py:174-220 | the fallback of row `r` is played twice when `r` is even and two more rows follow, and once otherwise, so queued items are never played after the last row |
| Timeline.TwoRows | main.py:174-220 | two rows output exactly `I0 I1`, with no review |
| Timeline.FiveShortRows | main.py:174-220 | five short rows output exactly `I0 I1 R0 I2 I3 R2 I4` |
| Timeline.ShortReview | main.py:177-185 | a short item is reviewed as target, fallback, target |
| LearningSets.LearningSet.Extend | learningset.py:50-51 | the other items follow the current ones |
| LearningSets.BuildLearningSet | main.py:129-141 | the result set is `Assemble`: each sentence's chunks, then the sentence |
| LearningSets.AssembleCons | main.py:131-140 | the set is `chunks(s1) ++ [s1] ++ chunks(s2) ++ [s2] ++ ...`, read from the front |
| LearningSets.AssembleAppend | main.py:131-140 | assembling two runs of sentences concatenates their sets |
| LearningSets.AssembleNoChunks | main.py:131-140 | with no chunks extracted, the set is the sentences themselves |
| LearningSets.AssembleKeepsSentences | main.py:131-140 | every sentence ends up in the set |

## Left out

- Speech synthesis (`LearningModeTTS`, the `communicate_and_save_*` calls, main.py:62-114 and 204-209) is left out. It is a network call into a TTS service and changes nothing the sequencer reads. Its rate, volume and pitch strings use floating point.
- Configuration loading and argument dispatch (main.py:33-59, 235-272) are left out.
- File I/O is left out:
  - CSV reading (main.py:169-171);
  - the temporary directory (main.py:173);
  - the byte concatenation of the audio files (main.py:222-225).

  The model takes the rows after the header as a sequence and returns the reference order.
- File paths: the path of a row's audio file depends only on the row index (main.py:200-201), so `TtsItem` keeps the index instead of the two paths.
- Rows with fewer than two columns raise an `IndexError` in `main.py` (main.py:198-199). The model takes rows as pairs, so this error path is not modelled.
- `async`/`await`: the loop is strictly sequential, so every awaited call is one step of the model.
- ReviewQueue.Progressed and Sequencer.Sequencer.ProgressQueue require `progress >= 1`. Every caller passes a weight or a positive count, so this always holds in `main.py`. With progress 0, line 167 would read each key's list, pop it and extend it with itself, so every bucket at a key 0 or below would leave the queue and its items would be lost, while every positive key would collapse, in ascending order, into a fresh key 0 that the defaultdict creates after the old key 0 is popped. That case is not modelled.
- LearningSets.BuildLearningSet: the extractors are calls to a language model. The sentence extractor's output is the `sentences` parameter, and the short-chunk extractor is the total function `chunks`. A function is deterministic, while the language model may answer differently when the same sentence is sent twice; no lemma depends on a repeated sentence getting the same chunks.
- `learning_set_to_csv` (learningset.py:54-61) is left out. It writes the set through the csv library.
- The client and prompts of learningset.py (learningset.py:11-35, 64-100) are left out.
- common.py holds a plain data class with no logic, so it is not part of this model.
- Items.Measure counts the characters of a Dafny `string`, which are Unicode scalar values. This matches Python's `len` on `str`.

=== FILE: items.dfy ===
/**
 * The values the sequencer works on: a learning pair (one CSV row, or one
 * item of a learning set), the synthesized item that is queued for review,
 * and the audio-segment references that make up the output.
 */
module Items {

  /** A target-language phrase with its fallback-language translation. */
  datatype LearningItem = LearningItem(targetText: string, fallbackText: string)

  /**
   * A synthesized row. The two audio files of row `index` are named after the
   * index alone, so the row index stands for both file paths.
   */
  datatype TtsItem = TtsItem(targetText: string, fallbackText: string, index: nat)

  /** The audio file a reference points at: `target_{i}.mp3` or `fallback_{i}.mp3`. */
  datatype Ref = Target(row: nat) | Fallback(row: nat)

  /** Long-text threshold, in characters, of the item weight. */
  const LongText := 50

  /** The item built for CSV row `i`. */
  function MakeItem(i: nat, row: LearningItem): TtsItem
  {
    TtsItem(row.targetText, row.fallbackText, i)
  }

  /** The weight of an item: how many ticks introducing or reviewing it costs. */
  function Measure(item: TtsItem): (m: nat)
    ensures 1 <= m <= 2
    ensures m == 1 <==> |item.targetText| < LongText
  {
    if |item.targetText| < LongText then 1 else 2
  }

  /** Sum of the weights of a batch of items. */
  function TotalMeasure(items: seq<TtsItem>): (total: nat)
    ensures |items| <= total <= 2 * |items|
    ensures total == |items| <==> forall k :: 0 <= k < |items| ==> Measure(items[k]) == 1
  {
    if items == [] then 0 else Measure(items[0]) + TotalMeasure(items[1..])
  }

  /** First exposure of a newly introduced item: target, fallback, target, target. */
  function IntroForm(item: TtsItem): seq<Ref>
  {
    [Target(item.index), Fallback(item.index), Target(item.index), Target(item.index)]
  }

  /**
   * Review exposure of a due item: a long item gets an extra leading target,
   * then every item gets target, fallback, target.
   */
  function ReviewForm(item: TtsItem): (refs: seq<Ref>)
    ensures |refs| == 2 + Measure(item)
  {
    (if Measure(item) > 1 then [Target(item.index)] else [])
      + [Target(item.index), Fallback(item.index), Target(item.index)]
  }

  /** The review exposures of a batch of due items, in batch order. */
  function ReviewRefs(due: seq<TtsItem>): seq<Ref>
  {
    if due == [] then [] else ReviewForm(due[0]) + ReviewRefs(due[1..])
  }

  /** Expanding one more due item appends its review exposure at the end. */
  lemma {:induction false} ReviewRefsSnoc(due: seq<TtsItem>, item: TtsItem)
    ensures ReviewRefs(due + [item]) == ReviewRefs(due) + ReviewForm(item)
  {
    if due == [] {
      assert [item][1..] == [];
    } else {
      assert (due + [item])[1..] == due[1..] + [item];
      ReviewRefsSnoc(due[1..], item);
    }
  }

  /** A batch of due items costs two references per item plus its total weight. */
  lemma {:induction false} ReviewRefsLength(due: seq<TtsItem>)
    ensures |ReviewRefs(due)| == 2 * |due| + TotalMeasure(due)
  {
    if due != [] {
      ReviewRefsLength(due[1..]);
    }
  }

  /** An introduction plays the fallback of its own row exactly once. */
  lemma IntroFallbacks(item: TtsItem, r: nat)
    ensures multiset(IntroForm(item))[Fallback(r)] == if r == item.index then 1 else 0
  {
  }

  /** A review plays the fallback of its own row exactly once. */
  lemma ReviewFallbacks(item: TtsItem, r: nat)
    ensures multiset(ReviewForm(item))[Fallback(r)] == if r == item.index then 1 else 0
  {
  }

  /** A review is all targets except the fallback second from the end. */
  lemma ReviewFormRefs(item: TtsItem)
    ensures var refs := ReviewForm(item);
      && refs[|refs| - 2] == Fallback(item.index)
      && forall k :: 0 <= k < |refs| && k != |refs| - 2 ==> refs[k] == Target(item.index)
  {
  }
}

=== FILE: keys.dfy ===
/**
 * Ascending sequences of integer keys: the order in which the review queue's
 * buckets are walked (`sorted(review_queue.keys())`), and the filters that
 * split that order at the progress amount.
 */
module Keys {

  /** Strictly ascending, hence also free of duplicates. */
  predicate Increasing(s: seq<int>)
  {
    forall i, j :: 0 <= i < j < |s| ==> s[i] < s[j]
  }

  /** Every non-empty finite set of integers has a least element. */
  lemma {:induction false} MinimumExists(s: set<int>)
    requires s != {}
    ensures exists m :: m in s && forall x :: x in s ==> m <= x
  {
    assert exists e :: e in s by {
      if forall e :: e !in s {
        assert false;
      }
    }
    var y :| y in s;
    var rest := s - {y};
    assert forall x :: x in s ==> x == y || x in rest;
    if rest != {} {
      MinimumExists(rest);
      var m :| m in rest && forall x :: x in rest ==> m <= x;
      if y < m {
        assert forall x :: x in s ==> y <= x;
      } else {
        assert forall x :: x in s ==> m <= x;
      }
    }
  }

  /** The keys of a set in ascending order. */
  function SortedKeys(s: set<int>): (r: seq<int>)
    ensures Increasing(r)
    ensures forall k :: k in r <==> k in s
    ensures |r| == |s|
    decreases s
  {
    if s == {} then []
    else
      var m := Least(s);
      var rest := SortedKeys(s - {m});
      IncreasingCons(m, rest);
      [m] + rest
  }

  /** The least element of a non-empty set. */
  function Least(s: set<int>): (m: int)
    requires s != {}
    ensures m in s && forall x :: x in s ==> m <= x
  {
    MinimumExists(s);
    var m :| m in s && forall x :: x in s ==> m <= x;
    m
  }

  /** Putting a key below all others in front keeps a sequence ascending. */
  lemma IncreasingCons(x: int, s: seq<int>)
    requires Increasing(s)
    requires forall k :: k in s ==> x < k
    ensures Increasing([x] + s)
  {
    forall i, j | 0 <= i < j < |[x] + s|
      ensures ([x] + s)[i] < ([x] + s)[j]
    {
      if i == 0 {
        assert s[j - 1] in s;
      }
    }
  }

  /** The first element of a non-empty sequence is one of its elements. */
  lemma HeadIn(s: seq<int>)
    ensures s != [] ==> s[0] in s
  {
  }

  /** Appending a key above all others keeps a sequence ascending. */
  lemma IncreasingSnoc(s: seq<int>, x: int)
    requires Increasing(s)
    requires forall k :: k in s ==> k < x
    ensures Increasing(s + [x])
  {
    forall i, j | 0 <= i < j < |s + [x]|
      ensures (s + [x])[i] < (s + [x])[j]
    {
      if j == |s| {
        assert s[i] in s;
      }
    }
  }

  /** Two ascending sequences with the same elements are the same sequence. */
  lemma {:induction false} IncreasingUnique(a: seq<int>, b: seq<int>)
    requires Increasing(a) && Increasing(b)
    requires forall k :: k in a <==> k in b
    ensures a == b
  {
    HeadIn(a);
    HeadIn(b);
    if a != [] && b != [] {
      var x := a[0];
      assert x in a;
      assert x in b;
      var y := b[0];
      assert y in b;
      assert y in a;
      assert x == y;
      forall k
        ensures k in a[1..] <==> k in b[1..]
      {
        if k in a[1..] {
          assert k in a && k != a[0];
          assert k in b;
        }
        if k in b[1..] {
          assert k in b && k != b[0];
          assert k in a;
        }
      }
      IncreasingUnique(a[1..], b[1..]);
      assert a == [a[0]] + a[1..] && b == [b[0]] + b[1..];
    }
  }

  /** `SortedKeys` is the only ascending enumeration of a set. */
  lemma SortedKeysOf(s: set<int>, r: seq<int>)
    requires Increasing(r)
    requires forall k :: k in r <==> k in s
    ensures SortedKeys(s) == r
  {
    IncreasingUnique(SortedKeys(s), r);
  }

  /** The keys at or above `p`, in their original order. */
  function AtLeast(ks: seq<int>, p: int): (r: seq<int>)
    ensures forall k :: k in r <==> k in ks && k >= p
  {
    if ks == [] then []
    else
      var rest := AtLeast(ks[..|ks| - 1], p);
      assert forall k :: k in ks[..|ks| - 1] ==> k in ks;
      if ks[|ks| - 1] >= p then rest + [ks[|ks| - 1]] else rest
  }

  /** Filtering keeps an ascending sequence ascending. */
  lemma {:induction false} AtLeastIncreasing(ks: seq<int>, p: int)
    requires Increasing(ks)
    ensures Increasing(AtLeast(ks, p))
  {
    if ks != [] {
      var init := ks[..|ks| - 1];
      var last := ks[|ks| - 1];
      assert Increasing(init);
      AtLeastIncreasing(init, p);
      if last >= p {
        forall k | k in AtLeast(init, p) ensures k < last {
          var i :| 0 <= i < |init| && init[i] == k;
        }
        IncreasingSnoc(AtLeast(init, p), last);
      }
    }
  }

  /** No key reaches `p` exactly when nothing is at or above it. */
  lemma {:induction false} AtLeastEmpty(ks: seq<int>, p: int)
    ensures AtLeast(ks, p) == [] <==> forall k :: k in ks ==> k < p
  {
    if ks != [] {
      var init := ks[..|ks| - 1];
      assert forall k :: k in ks <==> k in init || k == ks[|ks| - 1] by {
        assert ks == init + [ks[|ks| - 1]];
      }
      AtLeastEmpty(init, p);
      HeadIn(AtLeast(ks, p));
    }
  }

  /** The keys below `p`, in their original order. */
  function Below(ks: seq<int>, p: int): (r: seq<int>)
    ensures forall k :: k in r <==> k in ks && k < p
  {
    if ks == [] then []
    else
      var rest := Below(ks[..|ks| - 1], p);
      assert forall k :: k in ks[..|ks| - 1] ==> k in ks;
      if ks[|ks| - 1] < p then rest + [ks[|ks| - 1]] else rest
  }

  /** Filtering keeps an ascending sequence ascending. */
  lemma {:induction false} BelowIncreasing(ks: seq<int>, p: int)
    requires Increasing(ks)
    ensures Increasing(Below(ks, p))
  {
    if ks != [] {
      var init := ks[..|ks| - 1];
      var last := ks[|ks| - 1];
      assert Increasing(init);
      BelowIncreasing(init, p);
      if last < p {
        forall k | k in Below(init, p) ensures k < last {
          var i :| 0 <= i < |init| && init[i] == k;
        }
        IncreasingSnoc(Below(init, p), last);
      }
    }
  }

  /** An ascending sequence is its keys below `p` followed by the others. */
  lemma {:induction false} SplitSorted(ks: seq<int>, p: int)
    requires Increasing(ks)
    ensures Below(ks, p) + AtLeast(ks, p) == ks
  {
    if ks != [] {
      var init, last := ks[..|ks| - 1], ks[|ks| - 1];
      assert ks == init + [last];
      assert Increasing(init);
      SplitSorted(init, p);
      if last < p {
        forall k | k in init ensures k < p {
          var i :| 0 <= i < |init| && init[i] == k;
        }
        AtLeastEmpty(init, p);
      }
    }
  }

  /** Every key moved down by `p`. */
  function Shift(ks: seq<int>, p: int): seq<int>
  {
    seq(|ks|, i requires 0 <= i < |ks| => ks[i] - p)
  }
}

=== FILE: learning_set.dfy ===
/**
 * The ordering loop of `learningset_command`: for each extracted sentence,
 * its short chunks and then the sentence itself are added to the result set.
 * The chunk extractor (a language-model call) is a function parameter.
 */
module LearningSets {
  import opened Items

  /** `LearningSet`: an ordered list of learning pairs, extended in place. */
  class LearningSet {
    var items: seq<LearningItem>

    constructor (items: seq<LearningItem>)
      ensures this.items == items
    {
      this.items := items;
    }

    /** `extend`: the other set's items follow the current ones. */
    method Extend(other: seq<LearningItem>)
      modifies this
      ensures items == old(items) + other
    {
      items := items + other;
    }

    /** `items.append`: one item at the end. */
    method Append(item: LearningItem)
      modifies this
      ensures items == old(items) + [item]
    {
      items := items + [item];
    }
  }

  /** Each sentence's chunks followed by the sentence, sentence after sentence. */
  function Assemble(sentences: seq<LearningItem>, chunks: string -> seq<LearningItem>): seq<LearningItem>
  {
    if sentences == [] then []
    else
      var last := sentences[|sentences| - 1];
      Assemble(sentences[..|sentences| - 1], chunks) + chunks(last.targetText) + [last]
  }

  /**
   * The result set built from the extracted sentences, where `chunks` stands
   * for the short-chunk extractor applied to a sentence's target text.
   */
  method BuildLearningSet(sentences: seq<LearningItem>, chunks: string -> seq<LearningItem>)
    returns (result: LearningSet)
    ensures result.items == Assemble(sentences, chunks)
  {
    result := new LearningSet([]);
    for i := 0 to |sentences|
      invariant result.items == Assemble(sentences[..i], chunks)
    {
      var item := sentences[i];
      result.Extend(chunks(item.targetText));
      result.Append(item);
      assert sentences[..i + 1][..i] == sentences[..i];
    }
    assert sentences[..|sentences|] == sentences;
  }

  /** Assembling two runs of sentences one after the other concatenates their sets. */
  lemma {:induction false} AssembleAppend(a: seq<LearningItem>, b: seq<LearningItem>, chunks: string -> seq<LearningItem>)
    ensures Assemble(a + b, chunks) == Assemble(a, chunks) + Assemble(b, chunks)
  {
    if b != [] {
      var init, last := b[..|b| - 1], b[|b| - 1];
      assert (a + b)[..|a + b| - 1] == a + init;
      AssembleAppend(a, init, chunks);
    } else {
      assert a + b == a;
    }
  }

  /** One sentence contributes its chunks followed by itself. */
  lemma AssembleOne(sentence: LearningItem, chunks: string -> seq<LearningItem>)
    ensures Assemble([sentence], chunks) == chunks(sentence.targetText) + [sentence]
  {
    assert [sentence][..0] == [];
  }

  /** The set is `chunks(s1) ++ [s1] ++ chunks(s2) ++ [s2] ++ ...`, read from the front. */
  lemma AssembleCons(sentence: LearningItem, rest: seq<LearningItem>, chunks: string -> seq<LearningItem>)
    ensures Assemble([sentence] + rest, chunks) == chunks(sentence.targetText) + [sentence] + Assemble(rest, chunks)
  {
    AssembleAppend([sentence], rest, chunks);
    AssembleOne(sentence, chunks);
  }

  /** With no chunks extracted, the set is the sentences themselves. */
  lemma {:induction false} AssembleNoChunks(sentences: seq<LearningItem>, chunks: string -> seq<LearningItem>)
    requires forall t :: chunks(t) == []
    ensures Assemble(sentences, chunks) == sentences
  {
    if sentences != [] {
      var init := sentences[..|sentences| - 1];
      AssembleNoChunks(init, chunks);
      assert init + [sentences[|sentences| - 1]] == sentences;
    }
  }

  /** Every sentence ends up in the set. */
  lemma {:induction false} AssembleKeepsSentences(sentences: seq<LearningItem>, chunks: string -> seq<LearningItem>)
    ensures forall s :: s in sentences ==> s in Assemble(sentences, chunks)
  {
    if sentences != [] {
      var init, last := sentences[..|sentences| - 1], sentences[|sentences| - 1];
      AssembleKeepsSentences(init, chunks);
      assert sentences == init + [last];
    }
  }
}

=== FILE: review_queue.dfy ===
/**
 * The review queue of the sequencer: a dictionary of lists keyed by integer
 * wait time, where a key may be present with an empty list, and the closed
 * form of what one call of `progress_queue(progress)` does to it.
 */
module ReviewQueue {
  import opened Items
  import opened Keys

  /** Buckets of queued items, keyed by wait time. */
  type Queue = map<int, seq<TtsItem>>

  /** Python's `min` on two integers. */
  function Min(a: int, b: int): int
  {
    if a <= b then a else b
  }

  /** Where `progress_queue(p)` moves the bucket at `key` (line `new_key = min(key - progress, 0)`). */
  function NewKey(key: int, p: int): (r: int)
    ensures r <= 0 && r <= key - p
    ensures r == 0 || r == key - p
  {
    Min(key - p, 0)
  }

  /** The bucket at `k`, or the empty list the `defaultdict(list)` supplies. */
  function Get(q: Queue, k: int): seq<TtsItem>
  {
    if k in q then q[k] else []
  }

  /** The buckets at the keys `ks`, concatenated in the order of `ks`. */
  function ConcatAt(q: Queue, ks: seq<int>): seq<TtsItem>
  {
    if ks == [] then [] else ConcatAt(q, ks[..|ks| - 1]) + Get(q, ks[|ks| - 1])
  }

  /** Every queued item, bucket after bucket in ascending key order. */
  function Flat(q: Queue): seq<TtsItem>
  {
    ConcatAt(q, SortedKeys(q.Keys))
  }

  /** The buckets at keys `p` and above, concatenated in ascending key order. */
  function Merged(q: Queue, p: int): seq<TtsItem>
  {
    ConcatAt(q, AtLeast(SortedKeys(q.Keys), p))
  }

  /**
   * The buckets at the keys of `ks` that lie below `p`, each re-keyed to
   * `min(k - p, 0)`, which for such a key is the negative `k - p`.
   */
  function ShiftedAt(q: Queue, p: int, ks: seq<int>): (r: Queue)
    requires p >= 1
    ensures forall k :: k in r ==> k < 0
  {
    if ks == [] then map[]
    else
      var last := ks[|ks| - 1];
      var r := ShiftedAt(q, p, ks[..|ks| - 1]);
      if last in q && last < p then r[NewKey(last, p) := q[last]] else r
  }

  /** A listed key below `p` lands, bucket intact, at `k - p`. */
  lemma {:induction false} ShiftedAtHas(q: Queue, p: int, ks: seq<int>, k: int)
    requires p >= 1
    requires k in ks && k in q && k < p
    ensures NewKey(k, p) in ShiftedAt(q, p, ks) && ShiftedAt(q, p, ks)[NewKey(k, p)] == q[k]
  {
    var last := ks[|ks| - 1];
    if k != last {
      assert ks == ks[..|ks| - 1] + [last];
      ShiftedAtHas(q, p, ks[..|ks| - 1], k);
    }
  }

  /** Every key of the shifted buckets comes from the listed key `p` above it. */
  lemma {:induction false} ShiftedAtOrigin(q: Queue, p: int, ks: seq<int>, k: int)
    requires p >= 1
    requires k in ShiftedAt(q, p, ks)
    ensures k + p in ks && k + p in q && k + p < p
  {
    var last := ks[|ks| - 1];
    assert ks == ks[..|ks| - 1] + [last];
    if !(last in q && last < p && k == NewKey(last, p)) {
      ShiftedAtOrigin(q, p, ks[..|ks| - 1], k);
    }
  }

  /**
   * The queue after re-keying the buckets at the keys `ks` to `min(k - p, 0)`:
   * those below `p` keep their bucket at a distinct negative key, and those
   * from `p` up are merged at key 0 in the order `ks` lists them.
   */
  function Collapsed(q: Queue, p: int, ks: seq<int>): (r: Queue)
    requires p >= 1
    ensures forall k :: k in r ==> k <= 0
    ensures 0 in r <==> AtLeast(ks, p) != []
    ensures 0 in r ==> r[0] == ConcatAt(q, AtLeast(ks, p))
  {
    var shifted := ShiftedAt(q, p, ks);
    var merged := AtLeast(ks, p);
    if merged == [] then shifted else shifted[0 := ConcatAt(q, merged)]
  }

  /**
   * The queue after `progress_queue(p)`, in closed form: each old key `k`
   * is re-keyed to `min(k - p, 0)`. Keys below `p` move intact to distinct
   * negative keys; all keys from `p` up collapse into key 0, their buckets
   * concatenated in ascending key order.
   */
  function Progressed(q: Queue, p: int): (r: Queue)
    requires p >= 1
    ensures forall k :: k in r ==> k <= 0
    ensures forall k :: k in q && k < p ==> NewKey(k, p) in r && r[NewKey(k, p)] == q[k]
    ensures 0 in r <==> exists k :: k in q && k >= p
    ensures 0 in r ==> r[0] == Merged(q, p)
  {
    var ks := SortedKeys(q.Keys);
    forall k | k in q && k < p
      ensures NewKey(k, p) in Collapsed(q, p, ks) && Collapsed(q, p, ks)[NewKey(k, p)] == q[k]
    {
      ShiftedAtHas(q, p, ks, k);
    }
    AtLeastEmpty(ks, p);
    Collapsed(q, p, ks)
  }

  /** Every negative key after `progress_queue(p)` comes from the key `p` above it. */
  lemma ProgressedOrigin(q: Queue, p: int, k: int)
    requires p >= 1
    requires k in Progressed(q, p) && k < 0
    ensures k + p in q && k + p < p
  {
    ShiftedAtOrigin(q, p, SortedKeys(q.Keys), k);
  }

  /** Concatenating the buckets of two key lists one after the other. */
  lemma {:induction false} ConcatAtAppend(q: Queue, a: seq<int>, b: seq<int>)
    ensures ConcatAt(q, a + b) == ConcatAt(q, a) + ConcatAt(q, b)
  {
    if b == [] {
      assert a + b == a;
    } else {
      assert (a + b)[..|a + b| - 1] == a + b[..|b| - 1];
      ConcatAtAppend(q, a, b[..|b| - 1]);
    }
  }

  /** Key lists that name equal buckets, position by position, concatenate equally. */
  lemma {:induction false} ConcatAtPointwise(q: Queue, a: seq<int>, r: Queue, b: seq<int>)
    requires |a| == |b|
    requires forall i :: 0 <= i < |a| ==> Get(q, a[i]) == Get(r, b[i])
    ensures ConcatAt(q, a) == ConcatAt(r, b)
  {
    if a != [] {
      ConcatAtPointwise(q, a[..|a| - 1], r, b[..|b| - 1]);
    }
  }

  /** Appending one key appends its bucket. */
  lemma ConcatAtSnoc(q: Queue, a: seq<int>, k: int)
    ensures ConcatAt(q, a + [k]) == ConcatAt(q, a) + Get(q, k)
  {
    assert (a + [k])[..|a|] == a;
  }

  /** In an ascending key list, the buckets below `p` all come before the others. */
  lemma ConcatAtSplit(q: Queue, ks: seq<int>, p: int)
    requires Increasing(ks)
    ensures ConcatAt(q, ks) == ConcatAt(q, Below(ks, p)) + ConcatAt(q, AtLeast(ks, p))
  {
    SplitSorted(ks, p);
    ConcatAtAppend(q, Below(ks, p), AtLeast(ks, p));
  }

  /** A key list with a single key at or above `p` merges just that bucket. */
  lemma MergedSingle(q: Queue, p: int, k: int)
    requires k in q && k >= p
    requires forall k' :: k' in q && k' >= p ==> k' == k
    ensures Merged(q, p) == q[k]
  {
    var ks := SortedKeys(q.Keys);
    var hi := AtLeast(ks, p);
    AtLeastIncreasing(ks, p);
    assert forall x :: x in hi <==> x in [k];
    IncreasingUnique(hi, [k]);
    assert [k][..0] == [];
    assert ConcatAt(q, [k]) == Get(q, k);
  }

  /** The keys below `p` reappear, in the same order, shifted down by `p`. */
  lemma ProgressedLowBuckets(q: Queue, p: int)
    requires p >= 1
    ensures ConcatAt(Progressed(q, p), Shift(Below(SortedKeys(q.Keys), p), p))
         == ConcatAt(q, Below(SortedKeys(q.Keys), p))
  {
    var r := Progressed(q, p);
    var lo := Below(SortedKeys(q.Keys), p);
    var shifted := Shift(lo, p);
    forall i | 0 <= i < |lo|
      ensures Get(q, lo[i]) == Get(r, shifted[i])
    {
      assert lo[i] in lo;
      assert shifted[i] == NewKey(lo[i], p);
    }
    ConcatAtPointwise(q, lo, r, shifted);
  }

  /** The shifted keys below `p` are keys of the new queue, all negative. */
  lemma ProgressedHasShifted(q: Queue, p: int)
    requires p >= 1
    ensures var shifted := Shift(Below(SortedKeys(q.Keys), p), p);
      forall k :: k in shifted ==> k in Progressed(q, p) && k < 0
  {
    var lo := Below(SortedKeys(q.Keys), p);
    var shifted := Shift(lo, p);
    forall k | k in shifted
      ensures k in Progressed(q, p) && k < 0
    {
      var i :| 0 <= i < |shifted| && shifted[i] == k;
      assert lo[i] in lo;
      assert k == NewKey(lo[i], p);
    }
  }

  /** Every negative key of the new queue is a shifted key below `p`. */
  lemma ProgressedNegativeShifted(q: Queue, p: int, k: int)
    requires p >= 1
    requires k in Progressed(q, p) && k < 0
    ensures k in Shift(Below(SortedKeys(q.Keys), p), p)
  {
    var lo := Below(SortedKeys(q.Keys), p);
    ProgressedOrigin(q, p, k);
    assert k + p in lo;
    var i :| 0 <= i < |lo| && lo[i] == k + p;
    assert Shift(lo, p)[i] == k;
  }

  /** The keys after `progress_queue(p)`, in ascending order. */
  lemma ProgressedKeys(q: Queue, p: int)
    requires p >= 1
    ensures var ks := SortedKeys(q.Keys);
      SortedKeys(Progressed(q, p).Keys)
        == Shift(Below(ks, p), p) + (if AtLeast(ks, p) == [] then [] else [0])
  {
    var r := Progressed(q, p);
    var ks := SortedKeys(q.Keys);
    var lo, hi := Below(ks, p), AtLeast(ks, p);
    var shifted := Shift(lo, p);
    var rks := shifted + (if hi == [] then [] else [0]);
    BelowIncreasing(ks, p);
    assert Increasing(shifted);
    ProgressedHasShifted(q, p);
    if hi != [] {
      IncreasingSnoc(shifted, 0);
    }
    AtLeastEmpty(ks, p);
    forall k | k in r && k < 0
      ensures k in shifted
    {
      ProgressedNegativeShifted(q, p, k);
    }
    assert forall k :: k in rks <==> k in r;
    SortedKeysOf(r.Keys, rks);
  }

  /**
   * `progress_queue` conserves the queued items and their order: reading
   * the buckets in ascending key order gives the same sequence before and
   * after. In particular no item is lost or duplicated.
   */
  lemma ProgressedFlat(q: Queue, p: int)
    requires p >= 1
    ensures Flat(Progressed(q, p)) == Flat(q)
    ensures multiset(Flat(Progressed(q, p))) == multiset(Flat(q))
  {
    var r := Progressed(q, p);
    var ks := SortedKeys(q.Keys);
    var lo, hi := Below(ks, p), AtLeast(ks, p);
    var shifted := Shift(lo, p);
    ProgressedKeys(q, p);
    ProgressedLowBuckets(q, p);
    ConcatAtSplit(q, ks, p);
    if hi != [] {
      ConcatAtAppend(r, shifted, [0]);
      assert ConcatAt(r, [0]) == r[0] by {
        assert [0][..0] == [];
      }
    } else {
      assert shifted + [] == shifted;
    }
  }

  /** The buckets at keys 0 and above: the only part of the queue a later review can reach. */
  function NonNeg(q: Queue): Queue
  {
    map k | k in q && k >= 0 :: q[k]
  }

  /** Queues that agree on every key from `p` up merge the same buckets at key 0. */
  lemma MergedAgree(q1: Queue, q2: Queue, p: int)
    requires forall k :: k >= p ==> (k in q1 <==> k in q2)
    requires forall k :: k >= p && k in q1 ==> q1[k] == q2[k]
    ensures Merged(q1, p) == Merged(q2, p)
  {
    var h1, h2 := AtLeast(SortedKeys(q1.Keys), p), AtLeast(SortedKeys(q2.Keys), p);
    AtLeastIncreasing(SortedKeys(q1.Keys), p);
    AtLeastIncreasing(SortedKeys(q2.Keys), p);
    assert forall k :: k in h1 <==> k in h2;
    IncreasingUnique(h1, h2);
    forall j | 0 <= j < |h1|
      ensures Get(q1, h1[j]) == Get(q2, h1[j])
    {
      assert h1[j] in h1;
    }
    ConcatAtPointwise(q1, h1, q2, h1);
  }

  /** A queue with no key above 0 keeps at most its key-0 bucket at keys 0 and above. */
  lemma NonNegOfNonPositive(r: Queue)
    requires forall k :: k in r ==> k <= 0
    ensures NonNeg(r) == if 0 in r then map[0 := r[0]] else map[]
  {
    var n := NonNeg(r);
    assert forall k :: k in n <==> k == 0 && 0 in r;
  }

  /** Queues with the same nonnegative part agree at every key 0 or above. */
  lemma NonNegAt(q1: Queue, q2: Queue, k: int)
    requires NonNeg(q1) == NonNeg(q2) && k >= 0
    ensures (k in q1 <==> k in q2) && Get(q1, k) == Get(q2, k)
  {
    assert k in q1 <==> k in NonNeg(q1);
    assert k in q2 <==> k in NonNeg(q2);
  }

  /** Deleting a key 0 or above deletes it from the queue's nonnegative part. */
  lemma NonNegRemove(q: Queue, k: int)
    requires k >= 0
    ensures NonNeg(q - {k}) == NonNeg(q) - {k}
  {
    var l, r := NonNeg(q - {k}), NonNeg(q) - {k};
    assert l.Keys == r.Keys;
  }

  /** Setting a bucket at a key 0 or above sets it in the queue's nonnegative part. */
  lemma NonNegUpdate(q: Queue, k: int, b: seq<TtsItem>)
    requires k >= 0
    ensures NonNeg(q[k := b]) == NonNeg(q)[k := b]
  {
    var l, r := NonNeg(q[k := b]), NonNeg(q)[k := b];
    assert l.Keys == r.Keys;
  }

  /**
   * What `progress_queue(p)` leaves at keys 0 and above depends only on what
   * was at keys 0 and above: it never reads a negative key's bucket into key 0.
   */
  lemma ProgressedNonNeg(q1: Queue, q2: Queue, p: int)
    requires p >= 1
    requires NonNeg(q1) == NonNeg(q2)
    ensures NonNeg(Progressed(q1, p)) == NonNeg(Progressed(q2, p))
  {
    forall k | k >= 0
      ensures (k in q1 <==> k in q2) && (k in q1 ==> q1[k] == q2[k])
    {
      assert k in q1 <==> k in NonNeg(q1);
      assert k in q2 <==> k in NonNeg(q2);
    }
    MergedAgree(q1, q2, p);
    var r1, r2 := Progressed(q1, p), Progressed(q2, p);
    assert 0 in r1 <==> 0 in r2;
    NonNegOfNonPositive(r1);
    NonNegOfNonPositive(r2);
  }

  /** A new bucket at a key above all others is read last. */
  lemma FlatInsertAbove(q: Queue, top: int, item: TtsItem)
    requires forall k :: k in q ==> k < top
    ensures Flat(q[top := [item]]) == Flat(q) + [item]
  {
    var r := q[top := [item]];
    var ks := SortedKeys(q.Keys);
    IncreasingSnoc(ks, top);
    assert forall k :: k in ks + [top] <==> k in r;
    SortedKeysOf(r.Keys, ks + [top]);
    ConcatAtSnoc(r, ks, top);
    forall j | 0 <= j < |ks|
      ensures Get(r, ks[j]) == Get(q, ks[j])
    {
      assert ks[j] in ks;
    }
    ConcatAtPointwise(r, ks, q, ks);
  }

  /** One run of the loop body of `progress_queue` on the bucket at `key`. */
  function MoveBucket(m: Queue, key: int, p: int): Queue
    requires key in m && p >= 1
  {
    var newKey := NewKey(key, p);
    (m - {key})[newKey := Get(m, newKey) + m[key]]
  }

  /** The buckets at the keys not in `done`. */
  function Untouched(q: Queue, done: seq<int>): Queue
  {
    map k | k in q && k !in done :: q[k]
  }

  /**
   * The queue after the loop of `progress_queue` has handled the first `j`
   * keys of `ks`: the keys not yet handled are untouched, and the handled
   * ones are re-keyed as `Collapsed` says.
   */
  ghost function Partial(q: Queue, p: int, ks: seq<int>, j: nat): Queue
    requires p >= 1
    requires j <= |ks|
  {
    Untouched(q, ks[..j]) + Collapsed(q, p, ks[..j])
  }

  lemma PartialStart(q: Queue, p: int, ks: seq<int>)
    requires p >= 1
    ensures Partial(q, p, ks, 0) == q
  {
    assert ks[..0] == [];
    assert AtLeast([], p) == [];
  }

  /** Updating the right operand of a union at a key the left one lacks. */
  lemma UnionUpdate(a: Queue, b: Queue, x: int, v: seq<TtsItem>)
    requires x !in a
    ensures a + b[x := v] == (a + b)[x := v]
  {
  }

  /** Removing a key the right operand of a union lacks. */
  lemma UnionRemove(a: Queue, b: Queue, x: int)
    requires x !in b
    ensures (a + b) - {x} == (a - {x}) + b
  {
  }

  /** A handled key leaves the untouched part. */
  lemma UntouchedSnoc(q: Queue, done: seq<int>, key: int)
    ensures Untouched(q, done + [key]) == Untouched(q, done) - {key}
  {
  }

  /** Keys before `key` in an ascending list are handled and below it. */
  lemma PrefixFacts(q: Queue, ks: seq<int>, j: nat)
    requires Increasing(ks) && forall k :: k in ks <==> k in q
    requires j < |ks|
    ensures ks[..j + 1] == ks[..j] + [ks[j]]
    ensures ks[j] in q && ks[j] !in ks[..j]
    ensures forall d :: d in ks[..j] ==> d < ks[j]
    ensures forall k :: k in Untouched(q, ks[..j]) ==> k >= ks[j]
  {
    var done := ks[..j];
    assert ks[j] in ks;
    forall d | d in done
      ensures d < ks[j]
    {
      var i :| 0 <= i < j && done[i] == d;
    }
    forall i | 0 <= i < j
      ensures ks[i] in done
    {
      assert done[i] == ks[i];
    }
    forall k | k in Untouched(q, done)
      ensures k >= ks[j]
    {
      var i :| 0 <= i < |ks| && ks[i] == k;
    }
  }

  /** A key above every handled key is not among the re-keyed buckets. */
  lemma CollapsedAbove(q: Queue, p: int, done: seq<int>, key: int)
    requires p >= 1
    requires forall d :: d in done ==> d < key
    ensures key !in Collapsed(q, p, done)
    ensures key < p ==> NewKey(key, p) !in Collapsed(q, p, done) && AtLeast(done, p) == []
  {
    AtLeastEmpty(done, p);
    if key in Collapsed(q, p, done) && key < 0 {
      ShiftedAtOrigin(q, p, done, key);
    }
    if key < p && NewKey(key, p) in Collapsed(q, p, done) {
      ShiftedAtOrigin(q, p, done, NewKey(key, p));
    }
  }

  /** Re-keying one more key, below `p`, adds its bucket at `k - p`. */
  lemma CollapsedSnocBelow(q: Queue, p: int, done: seq<int>, key: int)
    requires p >= 1
    requires key in q && key < p && AtLeast(done, p) == []
    ensures Collapsed(q, p, done + [key]) == Collapsed(q, p, done)[NewKey(key, p) := q[key]]
  {
    assert (done + [key])[..|done|] == done;
    assert AtLeast(done + [key], p) == [];
    assert Collapsed(q, p, done) == ShiftedAt(q, p, done);
    assert Collapsed(q, p, done + [key]) == ShiftedAt(q, p, done + [key]);
  }

  /** Re-keying one more key, from `p` up, appends its bucket at key 0. */
  lemma CollapsedSnocAtLeast(q: Queue, p: int, done: seq<int>, key: int)
    requires p >= 1
    requires key in q && key >= p
    ensures Collapsed(q, p, done + [key])
      == Collapsed(q, p, done)[0 := ConcatAt(q, AtLeast(done, p)) + q[key]]
  {
    var merged := AtLeast(done, p);
    assert (done + [key])[..|done|] == done;
    assert AtLeast(done + [key], p) == merged + [key];
    ConcatAtSnoc(q, merged, key);
    assert ShiftedAt(q, p, done + [key]) == ShiftedAt(q, p, done);
  }

  /** Handling a key below `p`. */
  lemma PartialStepBelow(q: Queue, p: int, done: seq<int>, key: int)
    requires p >= 1
    requires key in q && key !in done && key < p
    requires forall d :: d in done ==> d < key
    requires forall k :: k in Untouched(q, done) ==> k >= key
    ensures var m := Untouched(q, done) + Collapsed(q, p, done);
      key in m && Untouched(q, done + [key]) + Collapsed(q, p, done + [key]) == MoveBucket(m, key, p)
  {
    var u, c := Untouched(q, done), Collapsed(q, p, done);
    var nk := NewKey(key, p);
    CollapsedAbove(q, p, done, key);
    UntouchedSnoc(q, done, key);
    CollapsedSnocBelow(q, p, done, key);
    assert nk !in u;
    assert key in u;
    UnionRemove(u, c, key);
    UnionUpdate(u - {key}, c, nk, q[key]);
    assert Get(u + c, nk) == [];
    assert [] + q[key] == q[key];
  }

  /** Handling a key at or above `p`. */
  lemma PartialStepAtLeast(q: Queue, p: int, done: seq<int>, key: int)
    requires p >= 1
    requires key in q && key !in done && key >= p
    requires forall d :: d in done ==> d < key
    requires forall k :: k in Untouched(q, done) ==> k >= key
    ensures var m := Untouched(q, done) + Collapsed(q, p, done);
      key in m && Untouched(q, done + [key]) + Collapsed(q, p, done + [key]) == MoveBucket(m, key, p)
  {
    var u, c := Untouched(q, done), Collapsed(q, p, done);
    var x := ConcatAt(q, AtLeast(done, p)) + q[key];
    CollapsedAbove(q, p, done, key);
    UntouchedSnoc(q, done, key);
    CollapsedSnocAtLeast(q, p, done, key);
    assert 0 !in u;
    assert key in u;
    assert Get(u + c, 0) == ConcatAt(q, AtLeast(done, p));
    UnionRemove(u, c, key);
    UnionUpdate(u - {key}, c, 0, x);
  }

  /** Handling key `ks[j]` takes the loop from `Partial(j)` to `Partial(j + 1)`. */
  lemma PartialStep(q: Queue, p: int, ks: seq<int>, j: nat)
    requires p >= 1
    requires Increasing(ks) && forall k :: k in ks <==> k in q
    requires j < |ks|
    ensures ks[j] in Partial(q, p, ks, j)
    ensures Partial(q, p, ks, j + 1) == MoveBucket(Partial(q, p, ks, j), ks[j], p)
  {
    PrefixFacts(q, ks, j);
    if ks[j] < p {
      PartialStepBelow(q, p, ks[..j], ks[j]);
    } else {
      PartialStepAtLeast(q, p, ks[..j], ks[j]);
    }
  }

  /** Nothing is left untouched once every key has been handled. */
  lemma UntouchedAll(q: Queue, done: seq<int>)
    requires forall k :: k in q ==> k in done
    ensures Untouched(q, done) == map[]
  {
    assert forall k :: k !in Untouched(q, done);
  }

  /** Once every key has been handled, the loop has computed `Progressed`. */
  lemma PartialDone(q: Queue, p: int)
    requires p >= 1
    ensures Partial(q, p, SortedKeys(q.Keys), |q.Keys|) == Progressed(q, p)
  {
    var ks := SortedKeys(q.Keys);
    var c := Collapsed(q, p, ks);
    assert ks[..|ks|] == ks;
    assert Progressed(q, p) == c;
    UntouchedAll(q, ks);
    assert map[] + c == c;
  }
}

=== FILE: schedule.dfy ===
/**
 * The per-row step of `settts_command` as a function on (review queue,
 * output list), the whole run over the CSV rows, and its closed form.
 */
module Schedule {
  import opened Items
  import opened ReviewQueue

  /** The two variables the scheduling loop changes: `review_queue` and `concat_list`. */
  datatype State = State(queue: Queue, output: seq<Ref>)

  datatype Option<T> = None | Some(value: T)

  /** Before the first row: an empty queue and an empty output. */
  function Start(): State
  {
    State(map[], [])
  }

  /** Reading `review_queue[k]` from the `defaultdict` creates key `k` with an empty list. */
  function Touch(q: Queue, k: int): (r: Queue)
    ensures k in r && r[k] == Get(q, k)
    ensures forall j :: j in q ==> j in r && r[j] == q[j]
    ensures forall j :: j in r ==> j in q || j == k
  {
    if k in q then q else q[k := []]
  }

  /** `any(key > n for key in review_queue)`. */
  predicate AnyKeyAbove(q: Queue, n: int)
  {
    exists k :: k in q && k > n
  }

  /**
   * The amount the queue advances after reviewing `due`: the total weight of
   * the due items when some key lies beyond their count, their count otherwise.
   */
  function AdvanceAmount(q: Queue, due: seq<TtsItem>): (p: nat)
    ensures due != [] ==> p >= 1
    ensures |due| <= p <= 2 * |due|
    ensures p == |due| <==> !AnyKeyAbove(q, |due|) || forall k :: 0 <= k < |due| ==> Measure(due[k]) == 1
  {
    if AnyKeyAbove(q, |due|) then TotalMeasure(due) else |due|
  }

  /**
   * The review at the top of each row: key 0 is read (and so created); when
   * it holds items, each is expanded into references, key 0 is deleted and
   * the queue advances.
   */
  function ReviewPass(s: State): (r: State)
    ensures r.output == s.output + ReviewRefs(Get(s.queue, 0))
    ensures Get(s.queue, 0) == [] ==> r.queue == Touch(s.queue, 0)
    ensures Get(s.queue, 0) != [] ==> forall k :: k in r.queue ==> k <= 0
  {
    var q := Touch(s.queue, 0);
    var due := q[0];
    if due == [] then State(q, s.output)
    else State(Progressed(q - {0}, AdvanceAmount(q, due)), s.output + ReviewRefs(due))
  }

  /**
   * A review that finds items at key 0 deletes them from the queue, and the
   * advance keeps every other queued item, in the same order.
   */
  lemma ReviewPassFlat(s: State)
    requires Get(s.queue, 0) != []
    ensures Flat(ReviewPass(s).queue) == Flat(s.queue - {0})
  {
    var q := Touch(s.queue, 0);
    assert q - {0} == s.queue - {0};
    ProgressedFlat(q - {0}, AdvanceAmount(q, q[0]));
  }

  /**
   * The second half of a row: the new item is introduced, the queue advances
   * by its weight and the item is appended at key 2.
   */
  function Introduce(s: State, i: nat, row: LearningItem): (r: State)
    ensures r.output == s.output + IntroForm(MakeItem(i, row))
    ensures 2 in r.queue && r.queue[2] == [MakeItem(i, row)]
    ensures forall k :: k in r.queue && k != 2 ==> k <= 0
  {
    var item := MakeItem(i, row);
    var q := Progressed(s.queue, Measure(item));
    assert Get(q, 2) == [];
    State(q[2 := Get(q, 2) + [item]], s.output + IntroForm(item))
  }

  /**
   * The introduction keeps every queued item in order and adds the new item
   * after all of them: the advance conserves the queue, and key 2 is above
   * every key left by it.
   */
  lemma IntroduceFlat(s: State, i: nat, row: LearningItem)
    ensures Flat(Introduce(s, i, row).queue) == Flat(s.queue) + [MakeItem(i, row)]
  {
    var item := MakeItem(i, row);
    var p := Measure(item);
    var q := Progressed(s.queue, p);
    assert Introduce(s, i, row).queue == q[2 := [item]];
    ProgressedFlat(s.queue, p);
    FlatInsertAbove(q, 2, item);
  }

  /** One iteration of the row loop for CSV row `i`: the review, then the introduction. */
  function RowStep(s: State, i: nat, row: LearningItem): (r: State)
    ensures r.output == ReviewPass(s).output + IntroForm(MakeItem(i, row))
    ensures 2 in r.queue && r.queue[2] == [MakeItem(i, row)]
    ensures forall k :: k in r.queue && k != 2 ==> k <= 0
  {
    Introduce(ReviewPass(s), i, row)
  }

  /** The state after the loop has handled every row of `rows`. */
  function Run(rows: seq<LearningItem>): State
  {
    if rows == [] then Start()
    else RowStep(Run(rows[..|rows| - 1]), |rows| - 1, rows[|rows| - 1])
  }

  /**
   * The references the row after `prev` contributes, in closed form: the row
   * two back is reviewed when `prev` has even length (and at least two rows),
   * then the new row is introduced.
   */
  function RowRefs(prev: seq<LearningItem>, row: LearningItem): seq<Ref>
  {
    var n := |prev|;
    (if Even(n) && n >= 2 then ReviewForm(MakeItem(n - 2, prev[n - 2])) else [])
      + IntroForm(MakeItem(n, row))
  }

  /** Whether `n` is even. */
  function Even(n: nat): bool
  {
    n % 2 == 0
  }

  /** The whole output, in closed form, row by row. */
  function Expected(rows: seq<LearningItem>): seq<Ref>
  {
    if rows == [] then [] else Expected(rows[..|rows| - 1]) + RowRefs(rows[..|rows| - 1], rows[|rows| - 1])
  }

  /**
   * A queue between rows: `last` alone at key 2, nothing else above 0, and
   * key 0 holding exactly `pending` (absent when `pending` is `None`).
   */
  predicate Settled(q: Queue, last: TtsItem, pending: Option<seq<TtsItem>>)
  {
    && Lookup(q, 2) == Some([last])
    && (forall k :: k in q && k != 2 ==> k <= 0)
    && Lookup(q, 0) == pending
  }

  /** The bucket at `k`, if the key is present. */
  function Lookup(q: Queue, k: int): Option<seq<TtsItem>>
  {
    if k in q then Some(q[k]) else None
  }

  /** The item of the last row handled. */
  function Newest(rows: seq<LearningItem>): TtsItem
    requires rows != []
  {
    MakeItem(|rows| - 1, rows[|rows| - 1])
  }

  /**
   * What key 0 holds after `rows`: after an even number of rows, the item of
   * the row before the last one; after an odd number, nothing.
   */
  function Due(rows: seq<LearningItem>): Option<seq<TtsItem>>
  {
    var n := |rows|;
    if Even(n) && n >= 2 then Some([MakeItem(n - 2, rows[n - 2])]) else None
  }

  /** One more row becomes the newest; key 0 is due after it exactly when it was not before. */
  lemma NewestSnoc(rows: seq<LearningItem>, row: LearningItem)
    requires rows != []
    ensures Newest(rows + [row]) == MakeItem(|rows|, row)
    ensures Even(|rows|) ==> Due(rows) == Some([MakeItem(|rows| - 2, rows[|rows| - 2])]) && Due(rows + [row]) == None
    ensures !Even(|rows|) ==> Due(rows) == None && Due(rows + [row]) == Some([Newest(rows)])
  {
    var rows' := rows + [row];
    assert rows'[|rows|] == row && rows'[|rows| - 1] == rows[|rows| - 1];
    assert Even(|rows'|) == !Even(|rows|);
  }

  /**
   * The queue after the rows `rows`: the last item alone at key 2, nothing
   * else above 0, and key 0 present exactly after an even number of rows,
   * holding the item two rows back.
   */
  predicate Shape(q: Queue, rows: seq<LearningItem>)
    requires rows != []
  {
    Settled(q, Newest(rows), Due(rows))
  }

  /** Advancing a queue whose only key from 1 up is 2 moves that bucket alone to key 0. */
  lemma AdvanceTwo(q: Queue, p: int)
    requires 1 <= p <= 2
    requires 2 in q && forall k :: k in q && k != 2 ==> k <= 0
    ensures 0 in Progressed(q, p) && Progressed(q, p)[0] == q[2]
  {
    MergedSingle(q, p, 2);
  }

  /** Advancing a queue with no positive key leaves nothing at key 0 or above. */
  lemma AdvanceNonPositive(q: Queue, p: int)
    requires p >= 1
    requires forall k :: k in q ==> k <= 0
    ensures forall k :: k in Progressed(q, p) ==> k < 0
  {
  }

  /** Introducing after a review that left no key above 0: the new item alone at key 2, and no key 0. */
  lemma IntroduceAfterReview(s: State, i: nat, row: LearningItem)
    requires forall k :: k in s.queue ==> k <= 0
    ensures Settled(Introduce(s, i, row).queue, MakeItem(i, row), None)
  {
    AdvanceNonPositive(s.queue, Measure(MakeItem(i, row)));
  }

  /** Introducing while `last` waits alone at key 2: `last` moves to key 0, the new item takes key 2. */
  lemma IntroduceAfterWait(s: State, i: nat, row: LearningItem, last: TtsItem)
    requires Lookup(s.queue, 2) == Some([last])
    requires forall k :: k in s.queue && k != 2 ==> k <= 0
    ensures Settled(Introduce(s, i, row).queue, MakeItem(i, row), Some([last]))
  {
    AdvanceTwo(s.queue, Measure(MakeItem(i, row)));
  }

  /** The first row: nothing is due, and the queue ends with the new item alone at key 2. */
  lemma StepFirst(s: State, row: LearningItem)
    requires s.queue == map[]
    ensures Settled(RowStep(s, 0, row).queue, MakeItem(0, row), None)
    ensures RowStep(s, 0, row).output == s.output + IntroForm(MakeItem(0, row))
  {
    var reviewed := ReviewPass(s);
    assert reviewed.queue == map[0 := []];
    IntroduceAfterReview(reviewed, 0, row);
  }

  /** When nothing is due, the item at key 2 moves to key 0. */
  lemma StepOdd(s: State, i: nat, row: LearningItem, last: TtsItem)
    requires Settled(s.queue, last, None)
    ensures Settled(RowStep(s, i, row).queue, MakeItem(i, row), Some([last]))
    ensures RowStep(s, i, row).output == s.output + IntroForm(MakeItem(i, row))
  {
    var reviewed := ReviewPass(s);
    assert Get(s.queue, 0) == [];
    assert reviewed.queue == Touch(s.queue, 0);
    IntroduceAfterWait(reviewed, i, row, last);
  }

  /** A single due item is reviewed, and the review leaves no key above 0. */
  lemma ReviewOne(s: State, last: TtsItem, prev: TtsItem)
    requires Settled(s.queue, last, Some([prev]))
    ensures ReviewPass(s).output == s.output + ReviewForm(prev)
    ensures forall k :: k in ReviewPass(s).queue ==> k <= 0
  {
    var due := [prev];
    assert 0 in s.queue && s.queue[0] == due;
    assert ReviewRefs(due) == ReviewForm(prev) by {
      assert due[1..] == [];
    }
  }

  /**
   * When `prev` is due it is reviewed, the item at key 2 moves to key 0 and
   * then, on the advance for the new item, further down.
   */
  lemma StepEven(s: State, i: nat, row: LearningItem, last: TtsItem, prev: TtsItem)
    requires Settled(s.queue, last, Some([prev]))
    ensures Settled(RowStep(s, i, row).queue, MakeItem(i, row), None)
    ensures RowStep(s, i, row).output == s.output + ReviewForm(prev) + IntroForm(MakeItem(i, row))
  {
    ReviewOne(s, last, prev);
    IntroduceAfterReview(ReviewPass(s), i, row);
  }

  /** What `RowRefs` contributes when nothing is due: the introduction alone. */
  lemma RowRefsIntro(rows: seq<LearningItem>, row: LearningItem)
    requires !(Even(|rows|) && |rows| >= 2)
    ensures RowRefs(rows, row) == IntroForm(MakeItem(|rows|, row))
  {
    assert [] + IntroForm(MakeItem(|rows|, row)) == IntroForm(MakeItem(|rows|, row));
  }

  /** What `RowRefs` contributes after a positive even number of rows: a review, then the introduction. */
  lemma RowRefsReview(rows: seq<LearningItem>, row: LearningItem)
    requires Even(|rows|) && |rows| >= 2
    ensures RowRefs(rows, row) == ReviewForm(MakeItem(|rows| - 2, rows[|rows| - 2])) + IntroForm(MakeItem(|rows|, row))
  {
  }

  /** A row after an odd number of rows introduces it and moves the last item to key 0. */
  lemma StepShapeOdd(s: State, rows: seq<LearningItem>, row: LearningItem)
    requires rows != [] && Shape(s.queue, rows) && !Even(|rows|)
    ensures Shape(RowStep(s, |rows|, row).queue, rows + [row])
    ensures RowStep(s, |rows|, row).output == s.output + RowRefs(rows, row)
  {
    NewestSnoc(rows, row);
    StepOdd(s, |rows|, row, Newest(rows));
    RowRefsIntro(rows, row);
  }

  /** A row after a positive even number of rows first reviews the item two rows back. */
  lemma StepShapeEven(s: State, rows: seq<LearningItem>, row: LearningItem)
    requires rows != [] && Shape(s.queue, rows) && Even(|rows|)
    ensures Shape(RowStep(s, |rows|, row).queue, rows + [row])
    ensures RowStep(s, |rows|, row).output == s.output + RowRefs(rows, row)
  {
    NewestSnoc(rows, row);
    StepEven(s, |rows|, row, Newest(rows), MakeItem(|rows| - 2, rows[|rows| - 2]));
  }

  /** One row after any non-empty run preserves `Shape` and contributes `RowRefs`. */
  lemma StepShape(s: State, rows: seq<LearningItem>, row: LearningItem)
    requires rows != [] && Shape(s.queue, rows)
    ensures Shape(RowStep(s, |rows|, row).queue, rows + [row])
    ensures RowStep(s, |rows|, row).output == s.output + RowRefs(rows, row)
  {
    if Even(|rows|) {
      StepShapeEven(s, rows, row);
    } else {
      StepShapeOdd(s, rows, row);
    }
  }

  /** The run over one more row is one more step, and its closed form one more `RowRefs`. */
  lemma RunSnoc(rows: seq<LearningItem>, row: LearningItem)
    ensures Run(rows + [row]) == RowStep(Run(rows), |rows|, row)
    ensures Expected(rows + [row]) == Expected(rows) + RowRefs(rows, row)
  {
    assert (rows + [row])[..|rows|] == rows;
  }

  /** The first row leaves `Shape` and its introduction. */
  lemma RunOne(row: LearningItem)
    ensures Shape(Run([row]).queue, [row])
    ensures Run([row]).output == Expected([row])
  {
    RunSnoc([], row);
    StepFirst(Start(), row);
  }

  /** `Shape` and the closed-form output carry over from a run to the run over one more row. */
  lemma RunShapeSnoc(rows: seq<LearningItem>, row: LearningItem)
    requires rows != [] && Shape(Run(rows).queue, rows)
    requires Run(rows).output == Expected(rows)
    ensures Shape(Run(rows + [row]).queue, rows + [row])
    ensures Run(rows + [row]).output == Expected(rows + [row])
  {
    RunSnoc(rows, row);
    StepShape(Run(rows), rows, row);
  }

  /** `RunSnoc` stated for the prefixes of one list of rows, as a loop over them meets it. */
  lemma RunPrefix(rows: seq<LearningItem>, i: nat)
    requires i < |rows|
    ensures Run(rows[..i + 1]) == RowStep(Run(rows[..i]), i, rows[i])
  {
    assert rows[..i + 1] == rows[..i] + [rows[i]];
    RunSnoc(rows[..i], rows[i]);
  }

  /** After any non-empty run of rows the queue has `Shape`, and the output is `Expected`. */
  lemma {:induction false} RunShape(rows: seq<LearningItem>)
    requires rows != []
    ensures Shape(Run(rows).queue, rows)
    ensures Run(rows).output == Expected(rows)
  {
    var init, last := rows[..|rows| - 1], rows[|rows| - 1];
    assert rows == init + [last];
    if init == [] {
      RunOne(last);
    } else {
      RunShape(init);
      RunShapeSnoc(init, last);
    }
  }

  /**
   * A row keeps every queued item outside key 0, in order, and appends the new
   * item; the items at key 0 leave the queue when they are reviewed.
   */
  lemma RowStepFlat(s: State, i: nat, row: LearningItem)
    ensures Get(s.queue, 0) != [] ==>
      Flat(RowStep(s, i, row).queue) == Flat(s.queue - {0}) + [MakeItem(i, row)]
    ensures Get(s.queue, 0) == [] ==>
      Flat(RowStep(s, i, row).queue) == Flat(Touch(s.queue, 0)) + [MakeItem(i, row)]
  {
    IntroduceFlat(ReviewPass(s), i, row);
    if Get(s.queue, 0) != [] {
      ReviewPassFlat(s);
    }
  }

  /**
   * The weighted advance of main.py:188-190 is chosen in every run: whenever
   * key 0 holds items, some key lies beyond their count.
   */
  lemma CoarseBranchDead(rows: seq<LearningItem>)
    requires rows != []
    ensures var q := Touch(Run(rows).queue, 0);
      q[0] != [] ==> AnyKeyAbove(q, |q[0]|)
  {
    RunShape(rows);
  }

  /**
   * The advance amount chosen after a review never shows in the output: with
   * any two amounts, the introduction that follows produces the same output
   * and the same buckets at keys 0 and above; the queues differ only at
   * negative keys, which no review reads.
   */
  lemma AdvanceAmountInvisible(q: Queue, out: seq<Ref>, p1: int, p2: int, i: nat, row: LearningItem)
    requires p1 >= 1 && p2 >= 1
    ensures var a := Introduce(State(Progressed(q, p1), out), i, row);
      var b := Introduce(State(Progressed(q, p2), out), i, row);
      && a.output == b.output
      && NonNeg(a.queue) == NonNeg(b.queue)
  {
    IntroduceFresh(Progressed(q, p1), out, i, row);
    IntroduceFresh(Progressed(q, p2), out, i, row);
  }

  /** Introducing into a queue with no key above 0 leaves only the new item at keys 0 and above. */
  lemma IntroduceFresh(q: Queue, out: seq<Ref>, i: nat, row: LearningItem)
    requires forall k :: k in q ==> k <= 0
    ensures NonNeg(Introduce(State(q, out), i, row).queue) == map[2 := [MakeItem(i, row)]]
  {
    var item := MakeItem(i, row);
    var r := Progressed(q, Measure(item));
    AdvanceNonPositive(q, Measure(item));
    NonNegOfNonPositive(r);
    assert Introduce(State(q, out), i, row).queue == r[2 := [item]];
    NonNegUpdate(r, 2, [item]);
  }

  /** The review depends only on the output so far and the buckets at keys 0 and above. */
  lemma ReviewPassNonNeg(s: State, t: State)
    requires NonNeg(s.queue) == NonNeg(t.queue) && s.output == t.output
    ensures ReviewPass(s).output == ReviewPass(t).output
    ensures NonNeg(ReviewPass(s).queue) == NonNeg(ReviewPass(t).queue)
  {
    NonNegAt(s.queue, t.queue, 0);
    var qs, qt := Touch(s.queue, 0), Touch(t.queue, 0);
    var due := Get(s.queue, 0);
    assert qs == s.queue[0 := due] && qt == t.queue[0 := due];
    NonNegUpdate(s.queue, 0, due);
    NonNegUpdate(t.queue, 0, due);
    if due != [] {
      assert AnyKeyAbove(qs, |due|) <==> AnyKeyAbove(qt, |due|) by {
        if AnyKeyAbove(qs, |due|) {
          var k :| k in qs && k > |due|;
          NonNegAt(qs, qt, k);
        }
        if AnyKeyAbove(qt, |due|) {
          var k :| k in qt && k > |due|;
          NonNegAt(qs, qt, k);
        }
      }
      NonNegRemove(qs, 0);
      NonNegRemove(qt, 0);
      ProgressedNonNeg(qs - {0}, qt - {0}, AdvanceAmount(qs, due));
    }
  }

  /** The introduction depends only on the output so far and the buckets at keys 0 and above. */
  lemma IntroduceNonNeg(s: State, t: State, i: nat, row: LearningItem)
    requires NonNeg(s.queue) == NonNeg(t.queue) && s.output == t.output
    ensures Introduce(s, i, row).output == Introduce(t, i, row).output
    ensures NonNeg(Introduce(s, i, row).queue) == NonNeg(Introduce(t, i, row).queue)
  {
    var item := MakeItem(i, row);
    var qs, qt := Progressed(s.queue, Measure(item)), Progressed(t.queue, Measure(item));
    ProgressedNonNeg(s.queue, t.queue, Measure(item));
    assert Introduce(s, i, row).queue == qs[2 := [item]];
    assert Introduce(t, i, row).queue == qt[2 := [item]];
    NonNegUpdate(qs, 2, [item]);
    NonNegUpdate(qt, 2, [item]);
  }

  /**
   * A row's output and the buckets it leaves at keys 0 and above depend only
   * on the output so far and the buckets at keys 0 and above: whatever sits
   * at a negative key is never played again.
   */
  lemma NonNegStep(s: State, t: State, i: nat, row: LearningItem)
    requires NonNeg(s.queue) == NonNeg(t.queue) && s.output == t.output
    ensures RowStep(s, i, row).output == RowStep(t, i, row).output
    ensures NonNeg(RowStep(s, i, row).queue) == NonNeg(RowStep(t, i, row).queue)
  {
    ReviewPassNonNeg(s, t);
    IntroduceNonNeg(ReviewPass(s), ReviewPass(t), i, row);
  }

  /** The output of any run is the closed form `Expected`. */
  lemma RunOutput(rows: seq<LearningItem>)
    ensures Run(rows).output == Expected(rows)
  {
    if rows != [] {
      RunShape(rows);
    }
  }
}

=== FILE: sequencer.dfy ===
/**
 * The scheduling loop of `settts_command` as it runs: an object holding the
 * review queue and the output list, whose methods change them in place, each
 * proved to do what the corresponding function of `ReviewQueue` or
 * `Schedule` says.
 */
module Sequencer {
  import opened Items
  import opened Keys
  import opened ReviewQueue
  import opened Schedule

  /** The two variables of `settts_command` that the loop updates. */
  class Sequencer {
    /** `review_queue`, a `defaultdict(list)` keyed by wait time. */
    var reviewQueue: Queue
    /** `concat_list`, the audio files in playing order. */
    var concatList: seq<Ref>

    /** The state as a value. */
    function Snapshot(): State
      reads this
    {
      State(reviewQueue, concatList)
    }

    /** An empty queue and an empty output list. */
    constructor ()
      ensures Snapshot() == Start()
    {
      reviewQueue := map[];
      concatList := [];
    }

    /**
     * `progress_queue(progress)`: every bucket, in ascending order of its
     * key, is popped and appended to the bucket at `min(key - progress, 0)`.
     */
    method ProgressQueue(progress: int)
      requires progress >= 1
      modifies this
      ensures reviewQueue == Progressed(old(reviewQueue), progress)
      ensures concatList == old(concatList)
    {
      ghost var start := reviewQueue;
      var oldKeys := SortedKeys(reviewQueue.Keys);
      PartialStart(start, progress, oldKeys);
      for j := 0 to |oldKeys|
        invariant reviewQueue == Partial(start, progress, oldKeys, j)
        invariant concatList == old(concatList)
      {
        PartialStep(start, progress, oldKeys, j);
        MoveBucketAt(oldKeys[j], progress);
      }
      PartialDone(start, progress);
    }

    /**
     * The loop body of `progress_queue`: `review_queue[new_key]` is read
     * (creating the key), then the bucket at `key` is popped and appended to it.
     */
    method MoveBucketAt(key: int, progress: int)
      requires key in reviewQueue && progress >= 1
      modifies this
      ensures reviewQueue == MoveBucket(old(reviewQueue), key, progress)
      ensures concatList == old(concatList)
    {
      var newKey := Min(key - progress, 0);
      if newKey !in reviewQueue {
        reviewQueue := reviewQueue[newKey := []];
      }
      var bucket := reviewQueue[key];
      reviewQueue := reviewQueue - {key};
      reviewQueue := reviewQueue[newKey := reviewQueue[newKey] + bucket];
    }

    /**
     * The review at the top of a row: reading key 0 creates it; when it holds
     * items, each is played back, key 0 is deleted and the queue advances.
     */
    method Review()
      modifies this
      ensures Snapshot() == ReviewPass(old(Snapshot()))
    {
      if 0 !in reviewQueue {
        reviewQueue := reviewQueue[0 := []];
      }
      var due := reviewQueue[0];
      if due != [] {
        var k := 0;
        while k < |due|
          invariant 0 <= k <= |due|
          invariant concatList == old(concatList) + ReviewRefs(due[..k])
          invariant reviewQueue == Touch(old(reviewQueue), 0)
        {
          var item := due[k];
          if Measure(item) > 1 {
            concatList := concatList + [Target(item.index)];
          }
          concatList := concatList + [Target(item.index), Fallback(item.index), Target(item.index)];
          ReviewRefsSnoc(due[..k], item);
          assert due[..k + 1] == due[..k] + [item];
          k := k + 1;
        }
        assert due[..|due|] == due;
        var addedCount := |due|;
        var progress;
        if AnyKeyAbove(reviewQueue, addedCount) {
          progress := TotalMeasure(due);
        } else {
          progress := addedCount;
        }
        reviewQueue := reviewQueue - {0};
        ProgressQueue(progress);
      }
    }

    /**
     * The second half of a row: the new item's introduction, an advance by its
     * weight and its insertion at key 2.
     */
    method Introduce(i: nat, row: LearningItem)
      modifies this
      ensures Snapshot() == Schedule.Introduce(old(Snapshot()), i, row)
    {
      var item := MakeItem(i, row);
      concatList := concatList + [Target(i), Fallback(i), Target(i), Target(i)];
      ProgressQueue(Measure(item));
      ghost var advanced := reviewQueue;
      if 2 !in reviewQueue {
        reviewQueue := reviewQueue[2 := []];
      }
      reviewQueue := reviewQueue[2 := reviewQueue[2] + [item]];
      assert reviewQueue == advanced[2 := Get(advanced, 2) + [item]];
    }

    /** One iteration of the row loop for row `i`: the review, then the introduction. */
    method Step(i: nat, row: LearningItem)
      modifies this
      ensures Snapshot() == RowStep(old(Snapshot()), i, row)
    {
      Review();
      Introduce(i, row);
    }
  }

  /**
   * The reference order `settts_command` builds for the CSV rows `rows`
   * (header already skipped): the closed form `Expected`.
   */
  method SetTts(rows: seq<LearningItem>) returns (concatList: seq<Ref>)
    ensures concatList == Expected(rows)
  {
    var sequencer := new Sequencer();
    var i := 0;
    while i < |rows|
      invariant 0 <= i <= |rows|
      invariant sequencer.Snapshot() == Run(rows[..i])
    {
      sequencer.Step(i, rows[i]);
      RunPrefix(rows, i);
      i := i + 1;
    }
    assert rows[..|rows|] == rows;
    RunOutput(rows);
    concatList := sequencer.concatList;
  }
}

=== FILE: timeline.dfy ===
/**
 * What the listener hears: properties of the closed-form output of a run,
 * which `Schedule.RunOutput` ties to the scheduling loop.
 */
module Timeline {
  import opened Items
  import opened ReviewQueue
  import opened Schedule

  /** Each row only appends to the output: the earlier output is a prefix of the later one. */
  lemma OutputGrows(rows: seq<LearningItem>, row: LearningItem)
    ensures var before, after := Run(rows).output, Run(rows + [row]).output;
      |after| >= |before| + 4 && after[..|before|] == before
  {
    RunSnoc(rows, row);
    StepGrows(Run(rows), |rows|, row);
  }

  /** One step keeps the output so far and adds at least the four references of the introduction. */
  lemma StepGrows(s: State, i: nat, row: LearningItem)
    ensures var after := RowStep(s, i, row).output;
      |after| >= |s.output| + 4 && after[..|s.output|] == s.output
  {
    var added := ReviewRefs(Get(s.queue, 0)) + IntroForm(MakeItem(i, row));
    assert RowStep(s, i, row).output == s.output + added;
    assert (s.output + added)[..|s.output|] == s.output;
  }

  /** Every reference of the closed form names one of the rows handled. */
  lemma {:induction false} ExpectedRows(rows: seq<LearningItem>)
    ensures forall x :: x in Expected(rows) ==> x.row < |rows|
  {
    if rows != [] {
      var init := rows[..|rows| - 1];
      ExpectedRows(init);
    }
  }

  /** How often the fallback audio of row `r` occurs in one row's references. */
  lemma RowRefsFallbacks(prev: seq<LearningItem>, row: LearningItem, r: nat)
    ensures var n := |prev|;
      multiset(RowRefs(prev, row))[Fallback(r)]
        == (if r == n then 1 else 0) + (if Even(n) && n >= 2 && r == n - 2 then 1 else 0)
  {
    var n := |prev|;
    if Even(n) && n >= 2 {
      RowRefsReview(prev, row);
      ReviewedFallbacks(MakeItem(n - 2, prev[n - 2]), MakeItem(n, row), r);
    } else {
      RowRefsIntro(prev, row);
      IntroFallbacks(MakeItem(n, row), r);
    }
  }

  /** A review followed by an introduction plays each of the two fallbacks once. */
  lemma ReviewedFallbacks(due: TtsItem, item: TtsItem, r: nat)
    ensures multiset(ReviewForm(due) + IntroForm(item))[Fallback(r)]
      == (if r == item.index then 1 else 0) + (if r == due.index then 1 else 0)
  {
    IntroFallbacks(item, r);
    ReviewFallbacks(due, r);
    CountAppend(ReviewForm(due), IntroForm(item), Fallback(r));
  }

  /**
   * Each row is heard with its fallback twice when it is reviewed and once
   * otherwise: exactly the even rows with at least two rows after them are
   * reviewed, once each; odd rows and the last rows are never reviewed.
   */
  lemma {:induction false} FallbackCount(rows: seq<LearningItem>, r: nat)
    requires r < |rows|
    ensures multiset(Expected(rows))[Fallback(r)] == if Even(r) && r + 2 < |rows| then 2 else 1
  {
    var init, last := rows[..|rows| - 1], rows[|rows| - 1];
    var n := |init|;
    var before, added := Expected(init), RowRefs(init, last);
    assert Expected(rows) == before + added;
    CountAppend(before, added, Fallback(r));
    RowRefsFallbacks(init, last, r);
    var earlier := multiset(before)[Fallback(r)];
    if r == n {
      ExpectedRows(init);
      assert Fallback(r) !in before;
      assert earlier == 0;
    } else {
      FallbackCount(init, r);
      Tally(n, r, earlier);
    }
  }

  /** The count for row `r < n` grows by one exactly when row `n` reviews it. */
  lemma Tally(n: nat, r: nat, earlier: int)
    requires r < n
    requires earlier == if Even(r) && r + 2 < n then 2 else 1
    ensures earlier + (if Even(n) && n >= 2 && r == n - 2 then 1 else 0)
      == if Even(r) && r + 2 < n + 1 then 2 else 1
  {
  }

  /** Counting in a concatenation adds the counts of its parts. */
  lemma CountAppend(a: seq<Ref>, b: seq<Ref>, x: Ref)
    ensures multiset(a + b)[x] == multiset(a)[x] + multiset(b)[x]
  {
    assert multiset(a + b) == multiset(a) + multiset(b);
  }

  /**
   * The second half of `RunSnoc` for the prefixes of one list of rows. It is
   * kept apart from `RunPrefix` so that proofs about the closed form alone
   * never see `Run`.
   */
  lemma ExpectedPrefix(rows: seq<LearningItem>, k: nat)
    requires k < |rows|
    ensures Expected(rows[..k + 1]) == Expected(rows[..k]) + RowRefs(rows[..k], rows[k])
  {
    assert rows[..k + 1][..k] == rows[..k];
  }

  /** Two rows are introduced one after the other, with no review. */
  lemma TwoRows(rows: seq<LearningItem>)
    requires |rows| == 2
    ensures Run(rows).output == [
      Target(0), Fallback(0), Target(0), Target(0),
      Target(1), Fallback(1), Target(1), Target(1)]
  {
    RunOutput(rows);
    ExpectedTwo(rows);
  }

  lemma ExpectedTwo(rows: seq<LearningItem>)
    requires |rows| == 2
    ensures Expected(rows) == [
      Target(0), Fallback(0), Target(0), Target(0),
      Target(1), Fallback(1), Target(1), Target(1)]
  {
    ExpectedPrefix(rows, 0);
    ExpectedPrefix(rows, 1);
    assert rows[..2] == rows;
  }

  /** The review of a short item: target, fallback, target. */
  lemma ShortReview(item: TtsItem)
    requires |item.targetText| < LongText
    ensures ReviewForm(item) == [Target(item.index), Fallback(item.index), Target(item.index)]
  {
  }

  /**
   * Five short rows: rows 0 and 2 are reviewed, two rows after their
   * introduction; rows 1, 3 and 4 are not.
   */
  lemma FiveShortRows(rows: seq<LearningItem>)
    requires |rows| == 5
    requires forall i :: 0 <= i < 5 ==> |rows[i].targetText| < LongText
    ensures Run(rows).output == [
      Target(0), Fallback(0), Target(0), Target(0),
      Target(1), Fallback(1), Target(1), Target(1),
      Target(0), Fallback(0), Target(0),
      Target(2), Fallback(2), Target(2), Target(2),
      Target(3), Fallback(3), Target(3), Target(3),
      Target(2), Fallback(2), Target(2),
      Target(4), Fallback(4), Target(4), Target(4)]
  {
    ExpectedFiveShort(rows);
    RunOutput(rows);
  }

  lemma ExpectedFiveShort(rows: seq<LearningItem>)
    requires |rows| == 5
    requires forall i :: 0 <= i < 5 ==> |rows[i].targetText| < LongText
    ensures Expected(rows) == [
      Target(0), Fallback(0), Target(0), Target(0),
      Target(1), Fallback(1), Target(1), Target(1),
      Target(0), Fallback(0), Target(0),
      Target(2), Fallback(2), Target(2), Target(2),
      Target(3), Fallback(3), Target(3), Target(3),
      Target(2), Fallback(2), Target(2),
      Target(4), Fallback(4), Target(4), Target(4)]
  {
    ExpectedFive(rows);
    ShortReview(MakeItem(0, rows[0]));
    ShortReview(MakeItem(2, rows[2]));
    FiveLiteral(
      IntroForm(MakeItem(0, rows[0])), IntroForm(MakeItem(1, rows[1])),
      ReviewForm(MakeItem(0, rows[0])), IntroForm(MakeItem(2, rows[2])),
      IntroForm(MakeItem(3, rows[3])),
      ReviewForm(MakeItem(2, rows[2])), IntroForm(MakeItem(4, rows[4])));
  }

  /** The five-row output spelled out reference by reference. */
  lemma FiveLiteral(i0: seq<Ref>, i1: seq<Ref>, r0: seq<Ref>, i2: seq<Ref>, i3: seq<Ref>, r2: seq<Ref>, i4: seq<Ref>)
    requires i0 == [Target(0), Fallback(0), Target(0), Target(0)]
    requires i1 == [Target(1), Fallback(1), Target(1), Target(1)]
    requires r0 == [Target(0), Fallback(0), Target(0)]
    requires i2 == [Target(2), Fallback(2), Target(2), Target(2)]
    requires i3 == [Target(3), Fallback(3), Target(3), Target(3)]
    requires r2 == [Target(2), Fallback(2), Target(2)]
    requires i4 == [Target(4), Fallback(4), Target(4), Target(4)]
    ensures i0 + i1 + r0 + i2 + i3 + r2 + i4 == [
      Target(0), Fallback(0), Target(0), Target(0),
      Target(1), Fallback(1), Target(1), Target(1),
      Target(0), Fallback(0), Target(0),
      Target(2), Fallback(2), Target(2), Target(2),
      Target(3), Fallback(3), Target(3), Target(3),
      Target(2), Fallback(2), Target(2),
      Target(4), Fallback(4), Target(4), Target(4)]
  {
  }

  /** The closed form over the first three of five rows. */
  lemma ExpectedThree(rows: seq<LearningItem>)
    requires |rows| == 5
    ensures Expected(rows[..3])
      == IntroForm(MakeItem(0, rows[0])) + IntroForm(MakeItem(1, rows[1]))
      + ReviewForm(MakeItem(0, rows[0])) + IntroForm(MakeItem(2, rows[2]))
  {
    var i0, i1, i2 :=
      IntroForm(MakeItem(0, rows[0])), IntroForm(MakeItem(1, rows[1])), IntroForm(MakeItem(2, rows[2]));
    assert Expected(rows[..1]) == i0 by {
      ExpectedPrefix(rows, 0);
      assert rows[..0] == [];
      RowRefsIntro(rows[..0], rows[0]);
    }
    assert Expected(rows[..2]) == i0 + i1 by {
      ExpectedPrefix(rows, 1);
      RowRefsIntro(rows[..1], rows[1]);
    }
    assert RowRefs(rows[..2], rows[2]) == ReviewForm(MakeItem(0, rows[0])) + i2 by {
      RowRefsReview(rows[..2], rows[2]);
      assert rows[..2][0] == rows[0];
    }
    ExpectedPrefix(rows, 2);
  }

  /** The closed form over five rows, one row's references after another. */
  lemma ExpectedFive(rows: seq<LearningItem>)
    requires |rows| == 5
    ensures Expected(rows)
      == IntroForm(MakeItem(0, rows[0])) + IntroForm(MakeItem(1, rows[1]))
      + ReviewForm(MakeItem(0, rows[0])) + IntroForm(MakeItem(2, rows[2]))
      + IntroForm(MakeItem(3, rows[3]))
      + ReviewForm(MakeItem(2, rows[2])) + IntroForm(MakeItem(4, rows[4]))
  {
    var i3, i4 := IntroForm(MakeItem(3, rows[3])), IntroForm(MakeItem(4, rows[4]));
    ExpectedThree(rows);
    var three := Expected(rows[..3]);
    assert Expected(rows[..4]) == three + i3 by {
      ExpectedPrefix(rows, 3);
      RowRefsIntro(rows[..3], rows[3]);
    }
    var four := Expected(rows[..4]);
    assert RowRefs(rows[..4], rows[4]) == ReviewForm(MakeItem(2, rows[2])) + i4 by {
      RowRefsReview(rows[..4], rows[4]);
      assert rows[..4][2] == rows[2];
    }
    assert Expected(rows) == four + RowRefs(rows[..4], rows[4]) by {
      ExpectedPrefix(rows, 4);
      assert rows[..5] == rows;
    }
  }
}
